=== FILE: README.md ===
# Wareki ⇄ seireki conversion engine, modelled in Dafny

This project models the calculation core of a small web tool. The tool
converts between Japanese era years (wareki: an era name such as 令和 plus a
year within that era) and Gregorian years (seireki). For years before the
first era name (645, 大化) it names the imperial reign instead. It also shows
a person's age relative to a birth date.

The two tables are explicit parameters of every operation: the era table
(`{name, startYear, endYear?}` rows) and the reign table (`{name, startYear,
endYear}` rows). So are the current year, today's date and the birth date.
Nothing reads a global or a clock.

Modules, one per source file plus shared layers:

- `Wrappers` (`wrappers.dfy`): `Option` for `null`/`undefined`, `Result` for a thrown error.
- `Js` (`js.dfy`): the JavaScript semantics the code relies on.
  - `parseInt` results (`ParsedInt = NaN | Int`) and number truthiness.
  - `find`, `slice().reverse().find`, `filter` and `slice` over sequences.
  - `SelectedIndices`, the reference for what `filter`/`find` select.
- `Text` (`text.dfy`): template-literal rendering of integers with its inverse `ParseDigits`, the `[0-9]` class, `join`.
- `Eras` (`eras.dfy`): the table rows.
  - `Covers` is the coverage test `year >= startYear && year <= (endYear || Infinity)`.
  - `EffectiveEnd` treats an `endYear` of 0 as absent, because the code only ever tests it for truthiness.
- `Converter` (`converter.dfy`): js/converter.js. The validators, `convertSeirekiToWareki`, and `WarekiConverter.toSeireki` / `toWareki` / `toWarekiMultiple`.
- `WarekiApp` (`wareki_app.dfy`): the pure fragments of js/wareki.js.
  - `calculateAge` and `getAgeInfo`.
  - The current-age display guard.
  - The result-text builder.
  - The filter-and-truncate step of `handleNumericInput`.
- `Utils` (`utils.dfy`): the reign lookup of `renderEmperorEra` in js/utils.js.
- `Draft` (`draft.dfy`): the older standalone js/00_NG_wareki.js.
  - Its validators, its string `toWareki`, its first-match `findGengouByYear` and its `renderEmperorEra`.
  - Its Gregorian-to-era click handler, which echoes the first matching era back into the form.

Behaviour as coded that a reader might not expect, and which the model keeps:

- `toWareki` searches the reversed table, so it returns the LAST era that
  covers a year. The draft's `findGengouByYear` and its echo into the form
  use the FIRST. `Draft.FirstMatchVersusLast` states exactly when the two
  differ.
- The "not yet reached" advisory of `validateWarekiInput` is returned as a
  message string like the errors. Callers treat any returned string as a
  failure.
- `toSeireki` does not check that the era year is at least 1. It only throws
  for an unknown era name.
- An `endYear` of 0, a `maxlength` of 0, and a target year of 0 all behave
  like missing values (JavaScript truthiness).

## Model

| member | source | states |
|---|---|---|
| `Js.FindLastIndex` | js/converter.js:83-89 | `slice().reverse().find(p)` yields the last position satisfying `p`, and nothing exactly when no element does |
| `Js.FilterSelects` | js/converter.js:103-107 | `filter` keeps exactly the elements that satisfy the predicate, each once, in their original order |
| `Eras.IndexOfName` | js/converter.js:12 | the era lookup by name finds the first row with that name; it finds nothing exactly when no row has that name |
| `Converter.CheckWareki` | js/converter.js:7-27 | the ordered validation rules. (1) Missing input: the name is empty, or the year is NaN or ≤ 0. The table is not consulted. (2) Unknown era: the name is in no row. (3) Year not in era: a bounded era whose end is before `startYear + year - 1`. (4) Advisory carrying that year: an open era past current year + 5. (5) Otherwise accepted, which happens exactly when the era covers the resolved year and, for an open era, the year is within the horizon |
| `Converter.ValidateWarekiInput` | js/converter.js:7-27 | returns `null` exactly when the input is accepted. Each message is returned exactly when its rule fires. The advisory message embeds exactly the resolved year |
| `Converter.MessagesDistinct` | js/converter.js:8-26 | no two validation outcomes render as the same message, including advisories for different years |
| `Converter.ValidateSeirekiInput` | js/converter.js:33-39 | `null` exactly when the year is a number > 0, otherwise the "year ≥ 1" message |
| `Converter.ConvertSeirekiToWareki` | js/converter.js:44-49 | returns exactly the eras covering the year, one per covering row, in table order |
| `Converter.ToSeireki` | js/converter.js:69-75 | `startYear + year - 1` of the first row with that name; fails with "era not found" exactly when no row has that name |
| `Converter.ToWarekiMultiple` | js/converter.js:102-112 | one match per covering era, in table order, each with `year = seireki - startYear + 1 ≥ 1` |
| `Converter.ToWareki` | js/converter.js:82-97 | `null` exactly when no era covers the year. Otherwise it returns the match of a covering era after which no era covers the year |
| `Converter.ToWarekiIsLastOfMultiple` | js/converter.js:82-112 | `toWareki` is `null` exactly when `toWarekiMultiple` is empty, and otherwise equals its last element |
| `Converter.MultipleRoundTrip` | js/converter.js:69-112 | with unique era names, `toSeireki` maps every match of `toWarekiMultiple(seireki)` back to `seireki` |
| `Converter.ToWarekiRoundTrip` | js/converter.js:69-97 | with unique era names, `toSeireki` maps the result of `toWareki(seireki)` back to `seireki` |
| `Converter.ValidatedRoundTrip` | js/converter.js:7-112 | an era year the validator accepts, or only flags as future, converts with `toSeireki`. `toWarekiMultiple` of the result then lists that same era name and year |
| `WarekiApp.CalculateAge` | js/wareki.js:284-295 | `null` exactly when the birth-date string is empty. Otherwise the result is the number of completed years: the birthday of that count is on or before the base date, and the next birthday is after it |
| `WarekiApp.CompletedYearsUnique` | js/wareki.js:288-294 | at most one age meets those two conditions, so they define the age completely |
| `WarekiApp.BirthdayBoundary` | js/wareki.js:288-294 | born 1990-03-15: 29 on 2020-03-14 and 30 on 2020-03-15 |
| `WarekiApp.GetAgeInfo` | js/wareki.js:255-276 | `null` exactly when the birth date or the target year is falsy. The reference date is 31 December of the target year. Born exactly when `targetYear ≥ birthYear`, with `age = targetYear - birthYear` and `isCurrentYear = (targetYear == currentYear)`. Otherwise unborn |
| `WarekiApp.AgeAtYearEnd` | js/wareki.js:258-259 | for any real birth month and day, the age on 31 December of a year is exactly that year minus the birth year |
| `WarekiApp.GetAgeInfoAsWritten` | js/wareki.js:255-276 | the code as written: `null` exactly when the birth date or the target year is falsy. Born exactly when the year the `Date` constructor actually builds is ≥ the birth year. The age is then that constructed year minus the birth year, and `isCurrentYear` compares the target year with the current year |
| `WarekiApp.AsWrittenAgreesOutsideTwoDigitYears` | js/wareki.js:258 | for target years outside 0 to 99 the as-written and the intended age information coincide |
| `WarekiApp.TwoDigitTargetYearCounterexample` | js/wareki.js:258 | target year 50 with birth date 0030-01-01 gives age 1920 as written and 20 as intended |
| `WarekiApp.CurrentAgeText` | js/wareki.js:179-183 | the current-age text is non-empty exactly when the age is non-null and ≥ 0. It is then `(現在 N 歳)` with N that age in decimal |
| `WarekiApp.UpdateCurrentAgeDisplay` | js/wareki.js:173-185 | the current age is shown exactly when a birth date is entered and it is not after today. The number shown is the age `calculateAge` computes for today |
| `WarekiApp.Label` | js/wareki.js:161 | the label starts with the era name and ends with 年. It is `name + "元年"` exactly when the era year is 1. Any other year is written between the two as its decimal number (`Text.IntToString`) |
| `WarekiApp.LabelInjective` | js/wareki.js:161 | for one era name, different era years give different labels |
| `WarekiApp.ResultText` | js/wareki.js:161-162 | the result text is empty exactly when there are no matches, and otherwise ends with 年 |
| `WarekiApp.ResultTextAppend` | js/wareki.js:161-162 | labels are joined by `" / "` in match order: one more match appends the separator and its label |
| `WarekiApp.FilterDigits` | js/wareki.js:348 | the filtered text holds only `0-9`; a text of digits only is left unchanged |
| `WarekiApp.FilterDigitsKeepsDigits` | js/wareki.js:348 | every digit of the input survives as often as it occurs, and no other character survives |
| `WarekiApp.FilterDigitsAppend` | js/wareki.js:348 | the filter keeps the digits in their order: it distributes over concatenation |
| `WarekiApp.Sanitize` | js/wareki.js:348-353 | the result is a digits-only prefix of the filtered text. No truthy `maxLength` means no cut. A positive `maxLength` cuts to `min(length, maxLength)`. A negative one drops that many digits from the end, leaving `max(0, length + maxLength)` |
| `WarekiApp.SanitizeIdempotent` | js/wareki.js:348-353 | sanitising twice equals sanitising once, unless `maxLength` is negative |
| `WarekiApp.NegativeLimitNotIdempotent` | js/wareki.js:351-353 | with `maxlength="-1"`, `slice` drops one more digit on each pass: "123" becomes "12", then "1" |
| `WarekiApp.HandleNumericInput` | js/wareki.js:342-359 | after the full-width conversion, the new field value holds only digits. It is a prefix of the filtered text. It keeps every digit when `maxlength` is not a truthy number, and exactly `min(length, maxlength)` digits for a positive one. A negative one drops that many digits from the end, leaving `max(0, length + maxlength)` |
| `Draft.ValidateWarekiInput` | js/00_NG_wareki.js:237-264 | same ordered rules and same messages as the js/converter.js version, for every input |
| `Draft.ValidateSeirekiInput` | js/00_NG_wareki.js:272-278 | `null` exactly when the year is a number > 0; equal to the js/converter.js version |
| `Draft.ToWarekiText` | js/00_NG_wareki.js:187-203 | "対象外" exactly when no era covers the year. Otherwise the labels of all covering eras in table order, with 元 for year 1, joined by `" / "`. This is the same text the label rule of js/wareki.js:161-162, applied by js/main.js:115, builds from `toWarekiMultiple` |
| `Draft.HitLabelsAreResultLabels` | js/00_NG_wareki.js:197-200 | the draft labels its covering eras exactly as the label rule of js/wareki.js:161-162, applied by js/main.js:115, labels the matches of `toWarekiMultiple` |
| `Draft.FindGengouByYear` | js/00_NG_wareki.js:222-227 | the first era in table order covering the year; `undefined` exactly when none covers it |
| `Draft.FindGengouIsFirstHit` | js/00_NG_wareki.js:222-227 | `findGengouByYear` is the head of the covering filter |
| `Draft.FirstMatchVersusLast` | js/00_NG_wareki.js:222-227 | with unique names, `findGengouByYear` (first match) and `toWareki` (last match) are both empty or both present. They name the same era exactly when a single era covers the year |
| `Draft.HeiseiReiwaFirstVersusLast` | js/00_NG_wareki.js:222-227 | in 2019, covered by both 平成 and 令和, the draft picks 平成 and the converter picks 令和 |
| `Draft.HeiseiReiwaText` | js/00_NG_wareki.js:187-203 | the text for 2019 in that table is "平成31年 / 令和元年" |
| `Draft.RenderEmperorEra` | js/00_NG_wareki.js:145-166 | the draft's reign lookup (line 147) selects the same reign and message as js/utils.js |
| `Draft.ConvertToWareki` | js/00_NG_wareki.js:87-139 | the handler as written. The branches are exclusive and complete. (1) The reign table was never assigned, so reading `emperorList.length` throws: the script never declares it. (2) An empty reign table gives the loading message. (3) An invalid year gives the fixed "year ≥ 1" message of `validateSeirekiInput`. (4) A year < 645 goes to the reign table. (5) No covering era. (6) Otherwise converted. A converted result shows the draft `toWareki` text. It echoes the first covering era and `year - startYear + 1` (lines 128-129), which equal the first match of `toWarekiMultiple` |
| `Draft.ConvertToWarekiDeclared` | js/00_NG_wareki.js:87-96 | the handler with `emperorList` declared as an empty array, as js/dataLoader.js:2 declares it. It never throws. It shows the loading message exactly when no non-empty table has been loaded. With a loaded table it behaves exactly as written |
| `Draft.UndeclaredReignTableThrows` | js/00_NG_wareki.js:92 | a click before the reign table is assigned throws as written, and shows the loading message once the table is declared |
| `Utils.FindReign` | js/utils.js:28 | the selected reign has `startYear ≤ year ≤ endYear` and is the first such reign in list order; none is selected exactly when no reign covers the year |
| `Utils.ReignEndsInclusive` | js/utils.js:28 | a reign is found in its first and its last year and not one year outside either end |
| `Utils.RenderEmperorEra` | js/utils.js:26-35 | `noEmperorMessage` exactly when no reign covers the year. Otherwise `emperorEraMessage` with the name of the first covering reign |

## Findings

| source | as written | input that shows it | evidently intended | confidence | as-written member | corrected member |
|---|---|---|---|---|---|---|
| js/wareki.js:258 | `new Date(targetYear, 11, 31)`: the multi-argument `Date` constructor reads years 0 to 99 as 1900 to 1999, so the reference date lands in the wrong century | target year 50, birth date 0030-01-01: age 1920 | the age on 31 December of year 50, i.e. 20 | medium; not executed. No shipped handler reaches `getAgeInfo`, so the page itself does not show it | `WarekiApp.TwoDigitTargetYearCounterexample` | `WarekiApp.GetAgeInfo` |
| js/00_NG_wareki.js:92 | `emperorList` is never declared: only the loader assigns it (line 35), so `emperorList.length` throws a ReferenceError until emperor.json has loaded, and forever if that load fails | a click on the Gregorian-to-era button before `loadEmperorData` has assigned the table | the "still loading" message, as with `let emperorList = []` (the declaration js/dataLoader.js:2 has) | medium; not executed | `Draft.UndeclaredReignTableThrows` | `Draft.ConvertToWarekiDeclared` |

## Left out

- Loading the tables (js/dataLoader.js, js/00_NG_wareki.js:7-45): `fetch`/JSON I/O and assignment to module globals. The tables are parameters instead.
- All DOM work: element lookups, `innerHTML`, `fadeIn`, Select2/jQuery, and the HTML templates of js/messages.js. `Utils.EmperorView` stands for the choice between `emperorEraMessage` and `noEmperorMessage`. `Draft.WarekiView` stands for what the draft handler renders.
- js/main.js and js/card.js: event wiring and font-size fitting with measured pixel sizes.
- The rest of js/wareki.js is not modelled: the constructor, `init`, `handleWarekiToSeireki`, `handleSeirekiToWareki`, `thisYearDisplay`, `clearValue`, `_renderConversionResult`, `formatAgeText` and `_createResultHTML`. They are DOM glue.
- js/wareki.js:95 calls the three-parameter `validateWarekiInput` with two arguments. js/wareki.js:144-161 indexes the single object returned by `toWareki` as if it were an array. Both call sites are not modelled; the model follows the js/converter.js signatures.
- The draft's `convertToSeireki` click handler (js/00_NG_wareki.js:50-82) is DOM glue around `validateWarekiInput` and the same `startYear + year - 1` as `Converter.ToSeireki`.
- `new Date()` and `new Date("YYYY-MM-DD")`: clocks become `currentYear` and `today` parameters, and the birth date is given as the values the `Date` getters report. `new Date("YYYY-MM-DD")` parses as UTC while the getters read local time, which can shift the birth date by a day in time zones west of UTC. That shift is not modelled.
- WarekiApp.CalculateAge: a non-empty but unparseable birth-date string, which makes the age NaN rather than `null`, is not modelled. The birth date is either absent (empty string) or a date.
- WarekiApp.GetAgeInfo: the target year is an integer, so the NaN case of `!targetYear` is not modelled. The age is stated only for birth months 0 to 11 and days 1 to 31, the range the `Date` getters return.
- `zenkakuToHankaku` is not part of this model. `WarekiApp.HandleNumericInput` takes it as a function parameter, and the other sanitiser members start from its output.
- Table rows whose `startYear` or `endYear` is not an integer (missing, a string, NaN) are not modelled. Years and offsets are unbounded integers, which matches JavaScript numbers for every realistic year.

=== FILE: converter.dfy ===
/** js/converter.js: the input validators and the `WarekiConverter` class,
    with the era table passed explicitly instead of held in a global. */
module Converter {
  import opened Wrappers
  import opened Js
  import opened Text
  import opened Eras

  /** How far past the current year an open-ended era may be entered before
      the validator answers with the "not yet reached" advisory. */
  const FutureTolerance := 5

  const MsgEraAndYearRequired := "元号と1年以上の年を入力してください。"
  const MsgUnknownEra := "その元号は認識できません。"
  const MsgNoSuchYear := "その年は存在しません。"
  const MsgNotYetPrefix := "その年はまだ存在しません。ただし西暦に換算すると "
  const MsgNotYetSuffix := " 年です。"
  const MsgSeirekiRequired := "1年以上の西暦を入力してください。"

  /** The outcome `validateWarekiInput` distinguishes, before it is rendered
      as a message (`Accepted` is the `null` return). */
  datatype WarekiCheck =
    | Accepted
    | MissingInput
    | UnknownEra
    | YearNotInEra
    | NotYetReached(seireki: int)

  /** The Gregorian year of year `year` of era `e`. */
  function Resolve(e: Era, year: int): int {
    e.startYear + year - 1
  }

  /** The rules of `validateWarekiInput` in their order: missing input first,
      without looking at the table; then the name lookup (first row of that
      name); then the end of a bounded era; then the advisory horizon of an
      open era. */
  function CheckWareki(table: seq<Era>, name: string, year: ParsedInt, currentYear: int): (r: WarekiCheck)
    ensures r.MissingInput? <==> name == "" || !IsPositive(year)
    ensures r.UnknownEra? <==> name != "" && IsPositive(year) && IndexOfName(table, name).None?
    ensures r.YearNotInEra? <==>
      name != "" && IsPositive(year) && IndexOfName(table, name).Some? &&
      var e := table[IndexOfName(table, name).value];
      !IsOpen(e) && Resolve(e, year.value) > EffectiveEnd(e).value
    ensures r.NotYetReached? <==>
      name != "" && IsPositive(year) && IndexOfName(table, name).Some? &&
      var e := table[IndexOfName(table, name).value];
      IsOpen(e) && Resolve(e, year.value) > currentYear + FutureTolerance
    ensures r.NotYetReached? ==> r.seireki == Resolve(table[IndexOfName(table, name).value], year.value)
    ensures r.Accepted? <==>
      name != "" && IsPositive(year) && IndexOfName(table, name).Some? &&
      var e := table[IndexOfName(table, name).value];
      Covers(e, Resolve(e, year.value)) && (IsOpen(e) ==> Resolve(e, year.value) <= currentYear + FutureTolerance)
  {
    if name == "" || !IsPositive(year) then MissingInput
    else match IndexOfName(table, name)
      case None => UnknownEra
      case Some(i) =>
        var e := table[i];
        var seireki := Resolve(e, year.value);
        if !IsOpen(e) && seireki > EffectiveEnd(e).value then YearNotInEra
        else if IsOpen(e) && seireki > currentYear + FutureTolerance then NotYetReached(seireki)
        else Accepted
  }

  function NotYetMessage(seireki: int): string {
    MsgNotYetPrefix + IntToString(seireki) + MsgNotYetSuffix
  }

  /** The string `validateWarekiInput` returns for an outcome; `None` is `null`. */
  function Message(c: WarekiCheck): Option<string> {
    match c
    case Accepted => None
    case MissingInput => Some(MsgEraAndYearRequired)
    case UnknownEra => Some(MsgUnknownEra)
    case YearNotInEra => Some(MsgNoSuchYear)
    case NotYetReached(s) => Some(NotYetMessage(s))
  }

  /** Every outcome renders differently, including the advisory's year, so the
      message alone tells the caller which rule fired. */
  lemma MessagesDistinct(a: WarekiCheck, b: WarekiCheck)
    ensures Message(a) == Message(b) ==> a == b
  {
    if a.NotYetReached? && b.NotYetReached? && Message(a) == Message(b) {
      var n := |MsgNotYetPrefix|;
      assert |IntToString(a.seireki)| == |IntToString(b.seireki)|;
      assert IntToString(a.seireki) == NotYetMessage(a.seireki)[n..n + |IntToString(a.seireki)|];
      assert IntToString(b.seireki) == NotYetMessage(b.seireki)[n..n + |IntToString(b.seireki)|];
      IntToStringInjective(a.seireki, b.seireki);
    }
  }

  /** `validateWarekiInput(converter, gengouName, year)`: `null` exactly when
      the input is accepted, and each message exactly when its rule fires. */
  function ValidateWarekiInput(table: seq<Era>, name: string, year: ParsedInt, currentYear: int): (r: Option<string>)
    ensures r.None? <==> CheckWareki(table, name, year, currentYear).Accepted?
    ensures r == Some(MsgEraAndYearRequired) <==> name == "" || !IsPositive(year)
    ensures r == Some(MsgUnknownEra) <==> name != "" && IsPositive(year) && IndexOfName(table, name).None?
    ensures r == Some(MsgNoSuchYear) <==> CheckWareki(table, name, year, currentYear).YearNotInEra?
    ensures forall s :: r == Some(NotYetMessage(s)) <==> CheckWareki(table, name, year, currentYear) == NotYetReached(s)
  {
    var c := CheckWareki(table, name, year, currentYear);
    MessagesDistinct(c, MissingInput);
    MessagesDistinct(c, UnknownEra);
    MessagesDistinct(c, YearNotInEra);
    forall s ensures Message(c) == Some(NotYetMessage(s)) ==> c == NotYetReached(s) {
      MessagesDistinct(c, NotYetReached(s));
    }
    Message(c)
  }

  /** `validateSeirekiInput(year)`: `null` exactly for a positive number. */
  function ValidateSeirekiInput(year: ParsedInt): (r: Option<string>)
    ensures r.None? <==> IsPositive(year)
    ensures r.Some? ==> r.value == MsgSeirekiRequired
  {
    if !IsPositive(year) then Some(MsgSeirekiRequired) else None
  }

  /** `convertSeirekiToWareki(year)` over the loaded table: every era covering
      `year`, in table order, each once. */
  function ConvertSeirekiToWareki(gengouList: seq<Era>, year: int): (r: seq<Era>)
    ensures var idx := CoveringIndices(gengouList, year);
      |r| == |idx| && forall k :: 0 <= k < |r| ==> r[k] == gengouList[idx[k]]
  {
    CoveringErasSelected(gengouList, year);
    CoveringEras(gengouList, year)
  }

  /** A wareki date: era name and year within the era (1 is the first year). */
  datatype Match = Match(gengou: string, year: int)

  function MatchOf(e: Era, seireki: int): Match {
    Match(e.name, seireki - e.startYear + 1)
  }

  /** The error `toSeireki` throws. */
  datatype ConvertError = EraNotFound

  /** `toSeireki(gengou, year)`: the start year of the first row of that name
      plus `year - 1`; throws when no row has that name. */
  function ToSeireki(table: seq<Era>, gengou: string, year: int): (r: Result<int, ConvertError>)
    ensures r.Failure? <==> forall i :: 0 <= i < |table| ==> table[i].name != gengou
    ensures r.Success? ==>
      exists i :: (0 <= i < |table| && table[i].name == gengou &&
        (forall j :: 0 <= j < i ==> table[j].name != gengou) && r.value == table[i].startYear + year - 1)
  {
    match IndexOfName(table, gengou)
    case None => Failure(EraNotFound)
    case Some(i) => Success(Resolve(table[i], year))
  }

  /** `toWarekiMultiple(seireki)`: one match per covering era, in table order,
      each with a year of at least 1. */
  function ToWarekiMultiple(table: seq<Era>, seireki: int): (r: seq<Match>)
    ensures var idx := CoveringIndices(table, seireki);
      |r| == |idx| && forall k :: 0 <= k < |r| ==> r[k] == MatchOf(table[idx[k]], seireki)
    ensures forall k :: 0 <= k < |r| ==> r[k].year >= 1
  {
    var hits := CoveringEras(table, seireki);
    CoveringErasSelected(table, seireki);
    seq(|hits|, k requires 0 <= k < |hits| => MatchOf(hits[k], seireki))
  }

  /** `toWareki(seireki)`: the LAST covering era of the table (it searches the
      reversed table), or `null` when none covers the year. */
  function ToWareki(table: seq<Era>, seireki: int): (r: Option<Match>)
    ensures r.None? <==> forall i :: 0 <= i < |table| ==> !Covers(table[i], seireki)
    ensures r.Some? ==> r.value.year >= 1
    ensures r.Some? ==>
      exists i :: (0 <= i < |table| && Covers(table[i], seireki) &&
        r.value == MatchOf(table[i], seireki) && forall j :: i < j < |table| ==> !Covers(table[j], seireki))
  {
    match FindLastIndex(table, CoversYear(seireki))
    case None => None
    case Some(i) => Some(MatchOf(table[i], seireki))
  }

  /** `toWareki` is `null` exactly when `toWarekiMultiple` is empty, and
      otherwise the last of its matches. */
  lemma ToWarekiIsLastOfMultiple(table: seq<Era>, seireki: int)
    ensures var m := ToWarekiMultiple(table, seireki);
      ToWareki(table, seireki) == if |m| == 0 then None else Some(m[|m| - 1])
  {
    FindLastIndexIsLastSelected(table, CoversYear(seireki));
  }

  /** Converting back: with unique era names every match of
      `toWarekiMultiple(seireki)` leads `toSeireki` back to `seireki`. */
  lemma MultipleRoundTrip(table: seq<Era>, seireki: int)
    requires UniqueNames(table)
    ensures forall k :: 0 <= k < |ToWarekiMultiple(table, seireki)| ==>
      var m := ToWarekiMultiple(table, seireki)[k];
      ToSeireki(table, m.gengou, m.year) == Success(seireki)
  {
  }

  /** The same for the single result of `toWareki`. */
  lemma ToWarekiRoundTrip(table: seq<Era>, seireki: int)
    requires UniqueNames(table)
    ensures ToWareki(table, seireki).Some? ==>
      ToSeireki(table, ToWareki(table, seireki).value.gengou, ToWareki(table, seireki).value.year) == Success(seireki)
  {
  }

  /** Converting forth: an era year the validator lets through (accepted, or
      only advised as lying in the future) converts with `toSeireki`, and
      `toWarekiMultiple` of the result lists that very era year. */
  lemma ValidatedRoundTrip(table: seq<Era>, name: string, year: int, currentYear: int)
    requires CheckWareki(table, name, Int(year), currentYear).Accepted? ||
             CheckWareki(table, name, Int(year), currentYear).NotYetReached?
    ensures ToSeireki(table, name, year).Success?
    ensures Match(name, year) in ToWarekiMultiple(table, ToSeireki(table, name, year).value)
  {
    var i := IndexOfName(table, name).value;
    var seireki := Resolve(table[i], year);
    var idx := CoveringIndices(table, seireki);
    assert i in idx;
    var k :| 0 <= k < |idx| && idx[k] == i;
    assert ToWarekiMultiple(table, seireki)[k] == Match(name, year);
  }
}

=== FILE: draft.dfy ===
/** js/00_NG_wareki.js, the older standalone script: its validators, its
    string-producing `toWareki`, its first-match `findGengouByYear`, its
    `renderEmperorEra`, and the Gregorian-to-era click handler that echoes the
    first matching era back into the form. Its module-global tables become
    parameters. */
module Draft {
  import opened Wrappers
  import opened Js
  import opened Text
  import opened Eras
  import Converter
  import WarekiApp
  import Utils

  /** What `toWareki` answers when no era covers the year. */
  const NotCovered := "対象外"

  /** The first year with an era name (大化); earlier years go to the reign table. */
  const TaikaYear := 645

  /** `validateWarekiInput(gengouName, year)`: the same four ordered rules as
      the later version in js/converter.js, and the same messages. */
  function ValidateWarekiInput(gengouList: seq<Era>, gengouName: string, year: ParsedInt, currentYear: int): (r: Option<string>)
    ensures r == Converter.ValidateWarekiInput(gengouList, gengouName, year, currentYear)
  {
    if gengouName == "" || !IsPositive(year) then Some(Converter.MsgEraAndYearRequired)
    else match IndexOfName(gengouList, gengouName)
      case None => Some(Converter.MsgUnknownEra)
      case Some(i) =>
        var gengou := gengouList[i];
        var seireki := gengou.startYear + year.value - 1;
        if !IsOpen(gengou) && seireki > EffectiveEnd(gengou).value then Some(Converter.MsgNoSuchYear)
        else if IsOpen(gengou) && seireki > currentYear + 5 then Some(Converter.NotYetMessage(seireki))
        else None
  }

  /** `validateSeirekiInput(year)`: `null` exactly for a positive number, as in
      js/converter.js. */
  function ValidateSeirekiInput(year: ParsedInt): (r: Option<string>)
    ensures r.None? <==> IsPositive(year)
    ensures r == Converter.ValidateSeirekiInput(year)
  {
    if !IsPositive(year) then Some(Converter.MsgSeirekiRequired) else None
  }

  /** `hits.map(g => label of year - g.startYear + 1)`. */
  function HitLabels(hits: seq<Era>, year: int): seq<string> {
    seq(|hits|, i requires 0 <= i < |hits| => WarekiApp.Label(hits[i].name, year - hits[i].startYear + 1))
  }

  /** The draft labels its covering eras exactly as the label rule of
      js/wareki.js:161-162, applied to `toWarekiMultiple` by js/main.js:115,
      labels the matches. */
  lemma HitLabelsAreResultLabels(gengouList: seq<Era>, year: int)
    ensures HitLabels(CoveringEras(gengouList, year), year) ==
            WarekiApp.Labels(Converter.ToWarekiMultiple(gengouList, year))
  {
    CoveringErasSelected(gengouList, year);
  }

  /** `toWareki(year)`: "対象外" exactly when no era covers the year, and
      otherwise the text the label rule of js/wareki.js:161-162 (applied by
      js/main.js:115) builds from `toWarekiMultiple`: the labels of all
      covering eras in table order, joined by " / ". */
  function ToWarekiText(gengouList: seq<Era>, year: int): (r: string)
    ensures r == NotCovered <==> forall i :: 0 <= i < |gengouList| ==> !Covers(gengouList[i], year)
    ensures r != NotCovered ==> r == WarekiApp.ResultText(Converter.ToWarekiMultiple(gengouList, year))
  {
    var hits := CoveringEras(gengouList, year);
    CoveringErasSelected(gengouList, year);
    HitLabelsAreResultLabels(gengouList, year);
    if |hits| == 0 then NotCovered
    else Join(HitLabels(hits, year), " / ")
  }

  /** `findGengouByYear(year)`: the FIRST era in table order covering `year`,
      `undefined` when there is none. */
  function FindGengouByYear(gengouList: seq<Era>, year: int): (r: Option<Era>)
    ensures r.None? <==> forall i :: 0 <= i < |gengouList| ==> !Covers(gengouList[i], year)
    ensures r.Some? ==>
      exists i :: (0 <= i < |gengouList| && gengouList[i] == r.value && Covers(r.value, year) &&
        forall j :: 0 <= j < i ==> !Covers(gengouList[j], year))
  {
    match FindIndex(gengouList, CoversYear(year))
    case None => None
    case Some(i) => Some(gengouList[i])
  }

  /** The first covering era is the head of the covering filter. */
  lemma FindGengouIsFirstHit(gengouList: seq<Era>, year: int)
    ensures FindGengouByYear(gengouList, year).Some? <==> |CoveringEras(gengouList, year)| > 0
    ensures FindGengouByYear(gengouList, year).Some? ==>
      FindGengouByYear(gengouList, year).value == CoveringEras(gengouList, year)[0]
  {
    FindIndexIsFirstSelected(gengouList, CoversYear(year));
    CoveringErasSelected(gengouList, year);
  }

  /** `findGengouByYear` picks the first covering era and the later
      `WarekiConverter.toWareki` the last: with unique names they name the same
      era exactly when a single era covers the year. */
  lemma FirstMatchVersusLast(gengouList: seq<Era>, year: int)
    requires UniqueNames(gengouList)
    ensures FindGengouByYear(gengouList, year).None? <==> Converter.ToWareki(gengouList, year).None?
    ensures FindGengouByYear(gengouList, year).Some? ==>
      (FindGengouByYear(gengouList, year).value.name == Converter.ToWareki(gengouList, year).value.gengou
       <==> |Converter.ToWarekiMultiple(gengouList, year)| == 1)
  {
    var idx := CoveringIndices(gengouList, year);
    FindIndexIsFirstSelected(gengouList, CoversYear(year));
    FindLastIndexIsLastSelected(gengouList, CoversYear(year));
    if |idx| >= 2 {
      assert idx[0] < idx[|idx| - 1];
    }
  }

  /** An era table in which 2019 belongs to both 平成 (1989-2019) and 令和 (2019-). */
  const HeiseiReiwa: seq<Era> := [Era("平成", 1989, Some(2019)), Era("令和", 2019, None)]

  /** In the overlap year the draft picks 平成 and the converter 令和. */
  lemma HeiseiReiwaFirstVersusLast()
    ensures FindGengouByYear(HeiseiReiwa, 2019) == Some(HeiseiReiwa[0])
    ensures Converter.ToWareki(HeiseiReiwa, 2019) == Some(Converter.Match("令和", 1))
  {
    var table := HeiseiReiwa;
    assert Covers(table[0], 2019) && Covers(table[1], 2019);
  }

  lemma HeiseiReiwaMatches()
    ensures Converter.ToWarekiMultiple(HeiseiReiwa, 2019) ==
            [Converter.Match("平成", 31), Converter.Match("令和", 1)]
  {
    var table := HeiseiReiwa;
    assert |table| == 2;
    assert Covers(table[0], 2019) && Covers(table[1], 2019);
    assert table[..1][..0] == [];
    assert Filter(table[..1], CoversYear(2019)) == [table[0]];
    assert CoveringEras(table, 2019) == table;
    CoveringErasSelected(table, 2019);
    var m := Converter.ToWarekiMultiple(table, 2019);
    assert |m| == 2 && m[0] == Converter.Match("平成", 31) && m[1] == Converter.Match("令和", 1);
  }

  lemma HeiseiReiwaLabels()
    ensures WarekiApp.Labels([Converter.Match("平成", 31), Converter.Match("令和", 1)]) == ["平成31年", "令和元年"]
  {
    assert NatToString(31) == "31";
    assert WarekiApp.Label("平成", 31) == "平成31年";
    assert WarekiApp.Label("令和", 1) == "令和元年";
  }

  /** The text of the overlap year lists both eras in table order. */
  lemma HeiseiReiwaText()
    ensures ToWarekiText(HeiseiReiwa, 2019) == "平成31年 / 令和元年"
  {
    var table := HeiseiReiwa;
    assert Covers(table[0], 2019);
    HeiseiReiwaMatches();
    HeiseiReiwaLabels();
    var labels := ["平成31年", "令和元年"];
    assert labels[..1] == ["平成31年"];
    calc {
      ToWarekiText(table, 2019);
      WarekiApp.ResultText([Converter.Match("平成", 31), Converter.Match("令和", 1)]);
      Join(labels, " / ");
      "平成31年" + " / " + "令和元年";
    }
  }

  /** The draft's `renderEmperorEra(year)`: the same closed-interval `find`
      over the reign table as js/utils.js, hence the same message. */
  function RenderEmperorEra(year: int, emperorList: seq<Reign>): (r: Utils.EmperorView)
    ensures r == Utils.RenderEmperorEra(year, emperorList)
  {
    match FindIndex(emperorList, ReignCoversYear(year))
    case None => Utils.NoEmperor(year)
    case Some(i) => Utils.EmperorEra(year, emperorList[i].name)
  }

  /** What the draft's Gregorian-to-era click handler shows. `ReferenceError`
      is the exception the handler throws before rendering anything. */
  datatype WarekiView =
    | ReferenceError
    | ReignDataLoading
    | InvalidYear(message: string)
    | BeforeEras(emperor: Utils.EmperorView)
    | NoGengou
    | Converted(text: string, selectedGengou: string, warekiYear: int)

  /** The click handler of `convertToWareki()` as written. The script never
      declares `emperorList`; only the loader assigns it, so it is `None`
      until `loadEmperorData` succeeds, and reading `emperorList.length` then
      throws. With a loaded table: it must be non-empty, the year must be
      valid, years before 645 go to the reign table, and otherwise the
      covering eras are listed and the FIRST of them is echoed into the era
      select and the year field. */
  function ConvertToWareki(gengouList: seq<Era>, emperorList: Option<seq<Reign>>, year: ParsedInt): (r: WarekiView)
    ensures r.ReferenceError? <==> emperorList.None?
    ensures r.ReignDataLoading? <==> emperorList.Some? && |emperorList.value| == 0
    ensures r.InvalidYear? <==> emperorList.Some? && |emperorList.value| > 0 && !IsPositive(year)
    ensures r.InvalidYear? ==> r.message == Converter.MsgSeirekiRequired
    ensures r.BeforeEras? <==> emperorList.Some? && |emperorList.value| > 0 && IsPositive(year) && year.value < TaikaYear
    ensures r.BeforeEras? ==> r.emperor == Utils.RenderEmperorEra(year.value, emperorList.value)
    ensures r.NoGengou? <==>
      emperorList.Some? && |emperorList.value| > 0 && IsPositive(year) && year.value >= TaikaYear &&
      forall i :: 0 <= i < |gengouList| ==> !Covers(gengouList[i], year.value)
    ensures r.Converted? ==> year.value >= TaikaYear && r.text == ToWarekiText(gengouList, year.value)
    ensures r.Converted? ==>
      var first := FindGengouByYear(gengouList, year.value);
      first.Some? && r.selectedGengou == first.value.name && r.warekiYear == year.value - first.value.startYear + 1
    ensures r.Converted? ==>
      Converter.Match(r.selectedGengou, r.warekiYear) == Converter.ToWarekiMultiple(gengouList, year.value)[0]
  {
    match emperorList
    case None => ReferenceError
    case Some(reigns) =>
      if |reigns| == 0 then ReignDataLoading
      else match ValidateSeirekiInput(year)
        case Some(message) => InvalidYear(message)
        case None =>
          var y := year.value;
          if y < TaikaYear then BeforeEras(RenderEmperorEra(y, reigns))
          else
            var gengous := CoveringEras(gengouList, y);
            CoveringErasSelected(gengouList, y);
            FindGengouIsFirstHit(gengouList, y);
            if |gengous| == 0 then NoGengou
            else Converted(Join(HitLabels(gengous, y), " / "), gengous[0].name, y - gengous[0].startYear + 1)
  }

  /** The handler with the reign table declared as `let emperorList = []`, as
      js/dataLoader.js declares it: before a successful load the table is
      empty, so the "still loading" message is shown instead of an exception,
      and with a loaded table nothing changes. */
  function ConvertToWarekiDeclared(gengouList: seq<Era>, emperorList: Option<seq<Reign>>, year: ParsedInt): (r: WarekiView)
    ensures !r.ReferenceError?
    ensures r.ReignDataLoading? <==> emperorList.None? || |emperorList.value| == 0
    ensures emperorList.Some? ==> r == ConvertToWareki(gengouList, emperorList, year)
  {
    ConvertToWareki(gengouList, Some(if emperorList.Some? then emperorList.value else []), year)
  }

  /** A click before the reign table is loaded, or after its load failed:
      as written the handler throws; declared, it shows the loading message. */
  lemma UndeclaredReignTableThrows(gengouList: seq<Era>, year: ParsedInt)
    ensures ConvertToWareki(gengouList, None, year) == ReferenceError
    ensures ConvertToWarekiDeclared(gengouList, None, year) == ReignDataLoading
  {
  }
}

=== FILE: eras.dfy ===
/** The two tables the engine reads, as the loader hands them over: the era
    table (`wareki.json`, rows `{name, startYear, endYear?}`) and the table of
    pre-645 imperial reigns (`emperor.json`, rows `{name, startYear, endYear}`).
    Both are plain immutable sequences passed to every operation. */
module Eras {
  import opened Wrappers
  import opened Js

  datatype Era = Era(name: string, startYear: int, endYear: Option<int>)

  datatype Reign = Reign(name: string, startYear: int, endYear: int)

  /** The end year as the code sees it. Every test of `endYear` is a
      truthiness test (`g.endYear || Infinity`, `g.endYear && …`), so an end
      year of 0 behaves exactly like a missing one. */
  function EffectiveEnd(e: Era): (r: Option<int>)
    ensures r.Some? <==> e.endYear.Some? && e.endYear.value != 0
    ensures r.Some? ==> r.value == e.endYear.value
  {
    match e.endYear
    case Some(v) => if v != 0 then Some(v) else None
    case None => None
  }

  /** An era whose end is absent (or 0): the current era. */
  predicate IsOpen(e: Era) {
    EffectiveEnd(e).None?
  }

  /** `year >= g.startYear && year <= (g.endYear || Infinity)`. */
  predicate Covers(e: Era, year: int) {
    e.startYear <= year && (IsOpen(e) || year <= EffectiveEnd(e).value)
  }

  function CoversYear(year: int): Era -> bool {
    (e: Era) => Covers(e, year)
  }

  function HasName(name: string): Era -> bool {
    (e: Era) => e.name == name
  }

  /** `year >= e.startYear && year <= e.endYear`: both bounds inclusive. */
  predicate ReignCovers(r: Reign, year: int) {
    r.startYear <= year <= r.endYear
  }

  function ReignCoversYear(year: int): Reign -> bool {
    (r: Reign) => ReignCovers(r, year)
  }

  /** No two rows of the era table carry the same name. */
  predicate UniqueNames(table: seq<Era>) {
    forall i, j :: 0 <= i < |table| && 0 <= j < |table| && table[i].name == table[j].name ==> i == j
  }

  /** Position of `table.find(g => g.name === name)`. */
  function IndexOfName(table: seq<Era>, name: string): (r: Option<nat>)
    ensures r.Some? ==> r.value < |table| && table[r.value].name == name
    ensures r.Some? ==> forall j :: 0 <= j < r.value ==> table[j].name != name
    ensures r.None? <==> forall j :: 0 <= j < |table| ==> table[j].name != name
  {
    FindIndex(table, HasName(name))
  }

  /** `table.filter(g => covers year)`. */
  function CoveringEras(table: seq<Era>, year: int): (r: seq<Era>)
    ensures forall k :: 0 <= k < |r| ==> Covers(r[k], year)
  {
    Filter(table, CoversYear(year))
  }

  /** The positions of all eras covering `year`, in table order. */
  function CoveringIndices(table: seq<Era>, year: int): (r: seq<nat>)
    ensures forall k :: 0 <= k < |r| ==> r[k] < |table| && Covers(table[r[k]], year)
    ensures forall k, l :: 0 <= k < l < |r| ==> r[k] < r[l]
    ensures forall i :: 0 <= i < |table| && Covers(table[i], year) ==> i in r
  {
    SelectedIndices(table, CoversYear(year))
  }

  /** The covering filter keeps exactly the rows at `CoveringIndices`, in order. */
  lemma CoveringErasSelected(table: seq<Era>, year: int)
    ensures |CoveringEras(table, year)| == |CoveringIndices(table, year)|
    ensures forall k :: 0 <= k < |CoveringEras(table, year)| ==>
      CoveringEras(table, year)[k] == table[CoveringIndices(table, year)[k]]
  {
    FilterSelects(table, CoversYear(year));
  }
}

=== FILE: js.dfy ===
/** The JavaScript value semantics the source relies on, over immutable
    sequences: what `parseInt` yields, truthiness of numbers, and the Array
    methods `find`, `reverse().find`, `filter` and `slice`. */
module Js {
  import opened Wrappers

  /** The result of `parseInt(text, 10)`: an integer, or NaN. */
  datatype ParsedInt = NaN | Int(value: int)

  /** `!(isNaN(n) || n <= 0)`. */
  predicate IsPositive(n: ParsedInt) {
    n.Int? && n.value > 0
  }

  /** A number in a boolean context: NaN and 0 are falsy. */
  predicate IsTruthy(n: ParsedInt) {
    n.Int? && n.value != 0
  }

  /** `Array.prototype.findIndex` started at position `from`. */
  function FindIndexFrom<T>(s: seq<T>, p: T -> bool, from: nat): (r: Option<nat>)
    requires from <= |s|
    ensures r.Some? ==> from <= r.value < |s| && p(s[r.value])
    ensures r.Some? ==> forall j :: from <= j < r.value ==> !p(s[j])
    ensures r.None? ==> forall j :: from <= j < |s| ==> !p(s[j])
    decreases |s| - from
  {
    if from == |s| then None
    else if p(s[from]) then Some(from)
    else FindIndexFrom(s, p, from + 1)
  }

  /** Position of the element `s.find(p)` returns: the first one satisfying `p`. */
  function FindIndex<T>(s: seq<T>, p: T -> bool): (r: Option<nat>)
    ensures r.Some? ==> r.value < |s| && p(s[r.value])
    ensures r.Some? ==> forall j :: 0 <= j < r.value ==> !p(s[j])
    ensures r.None? <==> forall j :: 0 <= j < |s| ==> !p(s[j])
  {
    FindIndexFrom(s, p, 0)
  }

  /** `s.slice().reverse()`. */
  function Reverse<T>(s: seq<T>): (r: seq<T>)
    ensures |r| == |s|
    ensures forall k :: 0 <= k < |s| ==> r[k] == s[|s| - 1 - k]
  {
    if |s| == 0 then [] else [s[|s| - 1]] + Reverse(s[..|s| - 1])
  }

  lemma ReverseAt<T>(s: seq<T>)
    ensures forall j :: 0 <= j < |s| ==> Reverse(s)[|s| - 1 - j] == s[j]
  {
  }

  /** Position of the element `s.slice().reverse().find(p)` returns: the last
      one satisfying `p`. */
  function FindLastIndex<T>(s: seq<T>, p: T -> bool): (r: Option<nat>)
    ensures r.Some? ==> r.value < |s| && p(s[r.value])
    ensures r.Some? ==> forall j :: r.value < j < |s| ==> !p(s[j])
    ensures r.None? <==> forall j :: 0 <= j < |s| ==> !p(s[j])
  {
    ReverseAt(s);
    match FindIndex(Reverse(s), p)
    case None => None
    case Some(k) => Some(|s| - 1 - k)
  }

  /** `s.filter(p)`. */
  function Filter<T>(s: seq<T>, p: T -> bool): (r: seq<T>)
    ensures |r| <= |s|
    ensures forall k :: 0 <= k < |r| ==> p(r[k])
  {
    if |s| == 0 then []
    else
      var n := |s| - 1;
      Filter(s[..n], p) + (if p(s[n]) then [s[n]] else [])
  }

  /** The positions of `s` whose elements satisfy `p`, in increasing order:
      the reference against which `Filter`, `FindIndex` and `FindLastIndex`
      are characterised. */
  function SelectedIndices<T>(s: seq<T>, p: T -> bool): (r: seq<nat>)
    ensures forall k :: 0 <= k < |r| ==> r[k] < |s| && p(s[r[k]])
    ensures forall k, l :: 0 <= k < l < |r| ==> r[k] < r[l]
    ensures forall i :: 0 <= i < |s| && p(s[i]) ==> i in r
  {
    if |s| == 0 then []
    else
      var n := |s| - 1;
      var prefix := SelectedIndices(s[..n], p);
      assert forall k :: 0 <= k < |prefix| ==> prefix[k] < n && s[prefix[k]] == s[..n][prefix[k]];
      prefix + (if p(s[n]) then [n] else [])
  }

  /** `filter` keeps exactly the selected elements, in their original order. */
  lemma {:induction false} FilterSelects<T>(s: seq<T>, p: T -> bool)
    ensures |Filter(s, p)| == |SelectedIndices(s, p)|
    ensures forall k :: 0 <= k < |Filter(s, p)| ==> Filter(s, p)[k] == s[SelectedIndices(s, p)[k]]
  {
    if |s| > 0 {
      var n := |s| - 1;
      FilterSelects(s[..n], p);
    }
  }

  /** `find` returns the first selected element. */
  lemma FindIndexIsFirstSelected<T>(s: seq<T>, p: T -> bool)
    ensures FindIndex(s, p).None? <==> |SelectedIndices(s, p)| == 0
    ensures FindIndex(s, p).Some? ==> FindIndex(s, p).value == SelectedIndices(s, p)[0]
  {
  }

  /** `reverse().find` returns the last selected element. */
  lemma FindLastIndexIsLastSelected<T>(s: seq<T>, p: T -> bool)
    ensures FindLastIndex(s, p).None? <==> |SelectedIndices(s, p)| == 0
    ensures FindLastIndex(s, p).Some? ==>
      FindLastIndex(s, p).value == SelectedIndices(s, p)[|SelectedIndices(s, p)| - 1]
  {
    var idx := SelectedIndices(s, p);
    if |idx| > 0 {
      var last := idx[|idx| - 1];
      assert forall m :: 0 <= m < |idx| ==> idx[m] <= last;
      assert forall j :: last < j < |s| ==> !p(s[j]);
    }
  }

  /** `s.slice(0, end)`: a negative `end` counts back from the end of `s`. */
  function SliceTo<T>(s: seq<T>, end: int): (r: seq<T>)
    ensures r <= s
    ensures 0 <= end ==> |r| == if end < |s| then end else |s|
    ensures end < 0 ==> |r| == if |s| + end > 0 then |s| + end else 0
  {
    var k := if end < 0 then (if |s| + end > 0 then |s| + end else 0)
             else if end < |s| then end else |s|;
    s[..k]
  }
}

=== FILE: text.dfy ===
/** Strings as the source builds them: the decimal rendering of a number in a
    template literal (`${n}`), the `[0-9]` character class, and `Array.join`. */
module Text {

  predicate IsDigit(c: char) {
    '0' <= c <= '9'
  }

  predicate AllDigits(s: string) {
    forall i :: 0 <= i < |s| ==> IsDigit(s[i])
  }

  function DigitValue(c: char): int {
    c as int - '0' as int
  }

  function DigitChar(d: nat): (c: char)
    requires d < 10
    ensures IsDigit(c) && DigitValue(c) == d
  {
    ('0' as int + d) as char
  }

  /** Decimal rendering of a non-negative integer, most significant digit first. */
  function NatToString(n: nat): (s: string)
    ensures |s| >= 1 && AllDigits(s)
  {
    if n < 10 then [DigitChar(n)] else NatToString(n / 10) + [DigitChar(n % 10)]
  }

  /** Reads a digit string back as a number: the reference inverse of `NatToString`. */
  function ParseDigits(s: string): int {
    if |s| == 0 then 0 else 10 * ParseDigits(s[..|s| - 1]) + DigitValue(s[|s| - 1])
  }

  lemma {:induction false} ParseNatToString(n: nat)
    ensures ParseDigits(NatToString(n)) == n
  {
    if n >= 10 {
      var s := NatToString(n / 10);
      ParseNatToString(n / 10);
      assert (s + [DigitChar(n % 10)])[..|s|] == s;
    }
  }

  /** `${i}` for an integer `i`: a minus sign, then the digits of its magnitude. */
  function IntToString(i: int): (s: string)
    ensures |s| >= 1 && (s[0] == '-' || IsDigit(s[0]))
    ensures s[0] == '-' <==> i < 0
  {
    if i < 0 then "-" + NatToString(-i) else NatToString(i)
  }

  /** Distinct integers render as distinct strings. */
  lemma IntToStringInjective(a: int, b: int)
    requires IntToString(a) == IntToString(b)
    ensures a == b
  {
    if a < 0 {
      assert NatToString(-a) == IntToString(a)[1..] == IntToString(b)[1..] == NatToString(-b);
      ParseNatToString(-a);
      ParseNatToString(-b);
    } else {
      ParseNatToString(a);
      ParseNatToString(b);
    }
  }

  /** `parts.join(sep)`. */
  function Join(parts: seq<string>, sep: string): (r: string)
    ensures |parts| > 0 ==> |r| >= |parts[|parts| - 1]|
    ensures |parts| > 0 ==> r[|r| - |parts[|parts| - 1]|..] == parts[|parts| - 1]
  {
    if |parts| == 0 then ""
    else if |parts| == 1 then parts[0]
    else Join(parts[..|parts| - 1], sep) + sep + parts[|parts| - 1]
  }
}

=== FILE: utils.dfy ===
/** js/utils.js: `renderEmperorEra`, which answers a year before the first
    era with the imperial reign covering it. The DOM write is replaced by the
    choice of message it makes. */
module Utils {
  import opened Wrappers
  import opened Js
  import opened Eras

  /** Which message `renderEmperorEra` renders: `emperorEraMessage(year, name)`
      or `noEmperorMessage(year)`. */
  datatype EmperorView = EmperorEra(year: int, emperorName: string) | NoEmperor(year: int)

  /** `emperorList.find(e => year >= e.startYear && year <= e.endYear)`: the
      first reign in list order whose closed interval holds `year`. */
  function FindReign(emperorList: seq<Reign>, year: int): (r: Option<Reign>)
    ensures r.Some? ==> r.value.startYear <= year
    ensures r.Some? ==> year <= r.value.endYear
    ensures r.Some? ==>
      exists i :: (0 <= i < |emperorList| && emperorList[i] == r.value &&
        forall j :: 0 <= j < i ==> !ReignCovers(emperorList[j], year))
    ensures r.None? <==> forall i :: 0 <= i < |emperorList| ==> !ReignCovers(emperorList[i], year)
  {
    match FindIndex(emperorList, ReignCoversYear(year))
    case None => None
    case Some(i) => Some(emperorList[i])
  }

  /** A reign is found in its first and in its last year: both interval ends
      are inclusive. */
  lemma ReignEndsInclusive(r: Reign)
    requires r.startYear <= r.endYear
    ensures FindReign([r], r.startYear) == Some(r)
    ensures FindReign([r], r.endYear) == Some(r)
    ensures FindReign([r], r.startYear - 1).None?
    ensures FindReign([r], r.endYear + 1).None?
  {
  }

  /** `renderEmperorEra(year, emperorList)`. */
  function RenderEmperorEra(year: int, emperorList: seq<Reign>): (r: EmperorView)
    ensures r.year == year
    ensures r.NoEmperor? <==> forall i :: 0 <= i < |emperorList| ==> !ReignCovers(emperorList[i], year)
    ensures r.EmperorEra? ==>
      exists i :: (0 <= i < |emperorList| && emperorList[i].name == r.emperorName &&
        ReignCovers(emperorList[i], year) && forall j :: 0 <= j < i ==> !ReignCovers(emperorList[j], year))
  {
    match FindReign(emperorList, year)
    case Some(emperor) => EmperorEra(year, emperor.name)
    case None => NoEmperor(year)
  }
}

=== FILE: wareki_app.dfy ===
/** The pure fragments of js/wareki.js (`WarekiApp`): the age calculator, the
    age shown next to the birth-date field, the text of a Gregorian-to-era
    result, and the numeric-input sanitiser. Clocks and date parsing become
    explicit parameters: today's date, the current year, and the birth date
    as the `Date` getters report it. */
module WarekiApp {
  import opened Wrappers
  import opened Js
  import opened Text
  import Converter

  /** A date as `getFullYear()`, `getMonth()` and `getDate()` report it; the
      month is 0-based. */
  datatype Date = Date(year: int, month: int, day: int)

  /** The month and day a `Date` object can hold. */
  predicate ValidMonthDay(d: Date) {
    0 <= d.month <= 11 && 1 <= d.day <= 31
  }

  /** `a` comes strictly before `b`, comparing (year, month, day) lexicographically. */
  predicate Before(a: Date, b: Date) {
    a.year < b.year || (a.year == b.year && (a.month < b.month || (a.month == b.month && a.day < b.day)))
  }

  /** The `k`-th birthday of someone born on `birth`. */
  function Anniversary(birth: Date, k: int): Date {
    Date(birth.year + k, birth.month, birth.day)
  }

  /** `calculateAge(baseDate, birthdateString)`, the birth date being `None`
      for the empty string: the number of birthdays reached on `base`, i.e.
      the year difference, less one while the birthday of the base year is
      still ahead. */
  function CalculateAge(base: Date, birth: Option<Date>): (r: Option<int>)
    ensures r.None? <==> birth.None?
    ensures r.Some? ==> !Before(base, Anniversary(birth.value, r.value))
    ensures r.Some? ==> Before(base, Anniversary(birth.value, r.value + 1))
  {
    match birth
    case None => None
    case Some(b) =>
      var age := base.year - b.year;
      var monthDifference := base.month - b.month;
      if monthDifference < 0 || (monthDifference == 0 && base.day < b.day) then Some(age - 1)
      else Some(age)
  }

  /** The two conditions `CalculateAge` guarantees pin the age down: no other
      number of years satisfies them. */
  lemma CompletedYearsUnique(base: Date, birth: Date, a: int, b: int)
    requires !Before(base, Anniversary(birth, a)) && Before(base, Anniversary(birth, a + 1))
    requires !Before(base, Anniversary(birth, b)) && Before(base, Anniversary(birth, b + 1))
    ensures a == b
  {
  }

  /** Born 1990-03-15: 29 on 2020-03-14, 30 on 2020-03-15 (months 0-based). */
  lemma BirthdayBoundary()
    ensures CalculateAge(Date(2020, 2, 14), Some(Date(1990, 2, 15))) == Some(29)
    ensures CalculateAge(Date(2020, 2, 15), Some(Date(1990, 2, 15))) == Some(30)
  {
  }

  /** The age information `getAgeInfo` returns: `{status: 'born', age,
      isCurrentYear}` or `{status: 'unborn', age: null, isCurrentYear: false}`. */
  datatype AgeInfo = Born(age: int, isCurrentYear: bool) | Unborn

  /** Turns the age on `reference` into the returned record; `null` when the
      birth date or the target year is falsy. */
  function AgeInfoAt(reference: Date, targetYear: int, birth: Option<Date>, currentYear: int): Option<AgeInfo> {
    if birth.None? || targetYear == 0 then None
    else match CalculateAge(reference, birth)
      case None => None
      case Some(age) =>
        if age >= 0 then Some(Born(age, targetYear == currentYear)) else Some(Unborn)
  }

  /** `new Date(y, 11, 31).getFullYear()`: the multi-argument `Date`
      constructor reads a year from 0 to 99 as 1900 to 1999. */
  function ConstructedYear(y: int): int {
    if 0 <= y <= 99 then 1900 + y else y
  }

  /** `getAgeInfo(targetYear, birthdateString)` as written: the reference date
      is `new Date(targetYear, 11, 31)`. */
  function GetAgeInfoAsWritten(targetYear: int, birth: Option<Date>, currentYear: int): (r: Option<AgeInfo>)
    ensures r.None? <==> birth.None? || targetYear == 0
    ensures r.Some? && ValidMonthDay(birth.value) ==>
      (r.value.Born? <==> ConstructedYear(targetYear) >= birth.value.year)
    ensures r.Some? && ValidMonthDay(birth.value) && r.value.Born? ==>
      r.value.age == ConstructedYear(targetYear) - birth.value.year && r.value.isCurrentYear == (targetYear == currentYear)
  {
    AgeAtYearEnd(ConstructedYear(targetYear), birth);
    AgeInfoAt(Date(ConstructedYear(targetYear), 11, 31), targetYear, birth, currentYear)
  }

  /** On 31 December of year `y` everyone born in a year up to `y` has had
      their birthday that year, so the age is the plain year difference. */
  lemma AgeAtYearEnd(y: int, birth: Option<Date>)
    ensures birth.Some? && ValidMonthDay(birth.value) ==>
      CalculateAge(Date(y, 11, 31), birth) == Some(y - birth.value.year)
  {
  }

  /** `getAgeInfo` with the reference date 31 December of `targetYear` itself,
      as its comment intends: the age is `targetYear` minus the birth year,
      the person counts as born exactly when that is not negative, and
      `isCurrentYear` compares the target year with the current year. */
  function GetAgeInfo(targetYear: int, birth: Option<Date>, currentYear: int): (r: Option<AgeInfo>)
    ensures r.None? <==> birth.None? || targetYear == 0
    ensures r.Some? && ValidMonthDay(birth.value) ==>
      (r.value.Born? <==> targetYear >= birth.value.year)
    ensures r.Some? && ValidMonthDay(birth.value) && r.value.Born? ==>
      r.value.age == targetYear - birth.value.year && r.value.isCurrentYear == (targetYear == currentYear)
  {
    AgeAtYearEnd(targetYear, birth);
    AgeInfoAt(Date(targetYear, 11, 31), targetYear, birth, currentYear)
  }

  /** Outside years 0 to 99 the code as written and the intended reading agree. */
  lemma AsWrittenAgreesOutsideTwoDigitYears(targetYear: int, birth: Option<Date>, currentYear: int)
    requires targetYear < 0 || targetYear > 99
    ensures GetAgeInfoAsWritten(targetYear, birth, currentYear) == GetAgeInfo(targetYear, birth, currentYear)
  {
  }

  /** Target year 50 for someone born on 0030-01-01: the code as written
      measures against 1950 and reports 1920 years instead of 20. */
  lemma TwoDigitTargetYearCounterexample()
    ensures GetAgeInfoAsWritten(50, Some(Date(30, 0, 1)), 2026) == Some(Born(1920, false))
    ensures GetAgeInfo(50, Some(Date(30, 0, 1)), 2026) == Some(Born(20, false))
  {
  }

  /** The text `updateCurrentAgeDisplay` puts next to the birth date for an age. */
  function CurrentAgeText(age: Option<int>): (r: string)
    ensures r != "" <==> age.Some? && age.value >= 0
    ensures r != "" ==> |r| >= 7 && r[4..|r| - 3] == IntToString(age.value)
  {
    if age.Some? && age.value >= 0 then "(現在 " + IntToString(age.value) + " 歳)" else ""
  }

  /** `updateCurrentAgeDisplay()` with today's date as a parameter: the
      current age is shown exactly when a birth date is entered and it is not
      after today. */
  function UpdateCurrentAgeDisplay(today: Date, birth: Option<Date>): (r: string)
    ensures r != "" <==> birth.Some? && !Before(today, birth.value)
    ensures r != "" ==> |r| >= 7 && r[4..|r| - 3] == IntToString(CalculateAge(today, birth).value)
  {
    CurrentAgeText(CalculateAge(today, birth))
  }

  /** `${gengou}${year === 1 ? '元' : year}年`: the first year of an era is
      written 元年, never 1年. */
  function Label(gengou: string, year: int): (r: string)
    ensures |r| > |gengou| && r[..|gengou|] == gengou && r[|r| - 1] == '年'
    ensures r == gengou + "元年" <==> year == 1
    ensures year != 1 ==> r[|gengou|..|r| - 1] == IntToString(year)
  {
    var middle := if year == 1 then "元" else IntToString(year);
    assert (gengou + middle + "年")[|gengou|] == middle[0];
    assert (gengou + "元年")[|gengou|] == '元';
    gengou + middle + "年"
  }

  /** A label can be read back: for one era name, different years give
      different labels. */
  lemma LabelInjective(gengou: string, a: int, b: int)
    requires Label(gengou, a) == Label(gengou, b)
    ensures a == b
  {
    if a != 1 && b != 1 {
      var la := Label(gengou, a);
      var n := |gengou|;
      assert IntToString(a) == la[n..|la| - 1];
      assert IntToString(b) == Label(gengou, b)[n..|la| - 1];
      IntToStringInjective(a, b);
    }
  }

  function Labels(matches: seq<Converter.Match>): seq<string> {
    seq(|matches|, i requires 0 <= i < |matches| => Label(matches[i].gengou, matches[i].year))
  }

  /** `wareki.map(r => label).join(" / ")`: the result text of a conversion. */
  function ResultText(matches: seq<Converter.Match>): (r: string)
    ensures r == "" <==> |matches| == 0
    ensures |matches| > 0 ==> r[|r| - 1] == '年'
  {
    Join(Labels(matches), " / ")
  }

  /** The labels appear in match order: the text of one more match is the text
      so far, the separator, and the new label. */
  lemma ResultTextAppend(matches: seq<Converter.Match>, m: Converter.Match)
    ensures |matches| == 0 ==> ResultText([m]) == Label(m.gengou, m.year)
    ensures |matches| > 0 ==> ResultText(matches + [m]) == ResultText(matches) + " / " + Label(m.gengou, m.year)
  {
    var ls := Labels(matches + [m]);
    assert ls[..|ls| - 1] == Labels(matches);
  }

  /** `.replace(/[^0-9]/g, '')`: drops every character but the ASCII digits. */
  function FilterDigits(s: string): (r: string)
    ensures AllDigits(r)
    ensures AllDigits(s) ==> r == s
  {
    if |s| == 0 then ""
    else
      var n := |s| - 1;
      assert s == s[..n] + [s[n]];
      FilterDigits(s[..n]) + (if IsDigit(s[n]) then [s[n]] else [])
  }

  /** Every digit of the input survives, as often as it occurs, and nothing
      else does. */
  lemma {:induction false} FilterDigitsKeepsDigits(s: string)
    ensures forall c :: multiset(FilterDigits(s))[c] == if IsDigit(c) then multiset(s)[c] else 0
  {
    if |s| > 0 {
      var n := |s| - 1;
      FilterDigitsKeepsDigits(s[..n]);
      assert s == s[..n] + [s[n]];
      assert multiset(s) == multiset(s[..n]) + multiset{s[n]};
    }
  }

  /** Digits keep their order: filtering distributes over concatenation. */
  lemma {:induction false} FilterDigitsAppend(a: string, b: string)
    ensures FilterDigits(a + b) == FilterDigits(a) + FilterDigits(b)
  {
    if |b| > 0 {
      var n := |b| - 1;
      var last := if IsDigit(b[n]) then [b[n]] else [];
      assert (a + b)[..|a + b| - 1] == a + b[..n];
      assert (a + b)[|a + b| - 1] == b[n];
      calc {
        FilterDigits(a + b);
        FilterDigits(a + b[..n]) + last;
        { FilterDigitsAppend(a, b[..n]); }
        (FilterDigits(a) + FilterDigits(b[..n])) + last;
        FilterDigits(a) + (FilterDigits(b[..n]) + last);
        FilterDigits(a) + FilterDigits(b);
      }
    } else {
      assert a + b == a;
    }
  }

  /** The filter-and-truncate step of `handleNumericInput` on the already
      half-width text `hankaku`: keep the digits, then cut to `maxLength` when
      that attribute parses to a truthy number and the digits are longer. A
      negative limit makes `slice` drop that many digits from the end. */
  function Sanitize(hankaku: string, maxLength: ParsedInt): (r: string)
    ensures AllDigits(r)
    ensures r <= FilterDigits(hankaku)
    ensures !IsTruthy(maxLength) ==> r == FilterDigits(hankaku)
    ensures maxLength.Int? && maxLength.value > 0 ==>
      |r| == if |FilterDigits(hankaku)| < maxLength.value then |FilterDigits(hankaku)| else maxLength.value
    ensures maxLength.Int? && maxLength.value < 0 ==>
      |r| == if |FilterDigits(hankaku)| + maxLength.value > 0 then |FilterDigits(hankaku)| + maxLength.value else 0
  {
    var digits := FilterDigits(hankaku);
    if IsTruthy(maxLength) && |digits| > maxLength.value then SliceTo(digits, maxLength.value)
    else digits
  }

  /** Sanitising a sanitised value changes nothing, unless the length limit is
      negative (then `slice` cuts from the end again each time). */
  lemma SanitizeIdempotent(hankaku: string, maxLength: ParsedInt)
    requires !(maxLength.Int? && maxLength.value < 0)
    ensures Sanitize(Sanitize(hankaku, maxLength), maxLength) == Sanitize(hankaku, maxLength)
  {
  }

  /** With `maxlength="-1"` every pass drops one more digit. */
  lemma NegativeLimitNotIdempotent()
    ensures Sanitize("123", Int(-1)) == "12"
    ensures Sanitize("12", Int(-1)) == "1"
  {
    assert AllDigits("123") && AllDigits("12");
    assert FilterDigits("123") == "123";
    assert FilterDigits("12") == "12";
  }

  /** `handleNumericInput(event)`: the new field value, with the full-width to
      half-width conversion `zenkakuToHankaku` (defined outside this model)
      passed as a function. */
  function HandleNumericInput(value: string, maxLength: ParsedInt, zenkakuToHankaku: string -> string): (r: string)
    ensures AllDigits(r)
    ensures r <= FilterDigits(zenkakuToHankaku(value))
    ensures !IsTruthy(maxLength) ==> r == FilterDigits(zenkakuToHankaku(value))
    ensures maxLength.Int? && maxLength.value > 0 ==>
      |r| == if |FilterDigits(zenkakuToHankaku(value))| < maxLength.value
             then |FilterDigits(zenkakuToHankaku(value))| else maxLength.value
    ensures maxLength.Int? && maxLength.value < 0 ==>
      |r| == if |FilterDigits(zenkakuToHankaku(value))| + maxLength.value > 0
             then |FilterDigits(zenkakuToHankaku(value))| + maxLength.value else 0
  {
    Sanitize(zenkakuToHankaku(value), maxLength)
  }
}

=== FILE: wrappers.dfy ===
/** `Option` for values that JavaScript reports as `null`/`undefined`, and
    `Result` for a value or the error a call throws. */
module Wrappers {

  datatype Option<+T> = None | Some(value: T)

  datatype Result<+R, +E> = Success(value: R) | Failure(error: E)
}
